=== FILE: README.md ===
# Traffic flow simulation — a Dafny model

This project models the engine of `trafficflowsimulation.py`, a small
simulation of cars on circular roads. Each road has its own traffic light.

- A **light** (`Lights`) is a two-state GREEN/RED machine. Its tick counter
  switches it to red after `green_duration` ticks (200 for a new light) and
  back to green after `red_duration` ticks (100).
- A **road** (`Roads`) has a length, a number of lanes, its light and an
  ordered list of cars. `generate_cars` replaces that list with `num_cars`
  fresh cars at position 0. Each has a random lane and a random speed.
- A **tick** (`Simulation.Tick`, `update` in trafficflowsimulation.py) has two phases.
  First, every road that is green at the start of the tick runs the car
  pass. Then every light ticks once.
- The **car pass** (`Cars`) walks the list in order and updates it in place:
  - each car's speed is capped by the speed the previous car *in the list*
    already has after its own update, whatever the cars' positions;
  - the speed is then capped by `max_speed`;
  - the car advances modulo the road length, and its lane is normalised
    modulo the number of lanes;
  - a car whose wrapped position lies in `[length - 1, length)` adds one to
    `cars_crossed`.

The crossing counter is modelled as written. A car that runs past the end of
the road and wraps to a small position is *not* credited. A car that lands in
the last unit band is credited, and it is credited again on every green tick it
stays there (`Scenarios.ParkedCarIsCreditedEachTick`).

Numbers:
- Positions and speeds are exact reals. Python's float `%` by the positive
  integer road length is `Arith.Wrap`: the unique value in `[0, length)` that
  differs from the argument by a whole number of lengths.
- The lane `%` is integer `%`. For a positive divisor, Dafny's `%` is the same
  as Python's.
- Python's `min(a, b)` returns `a` unless `b < a` (`Arith.Min`).

The random draws of `generate_cars` are parameters. For every road there is
one `Roads.Draw(lane, speed)` per car, and `Roads.DrawInRange` says which
draws `randint(0, lanes - 1)` and `uniform(1, max_speed)` can produce when
`max_speed >= 1`. A negative `num_cars` spawns no car, as `range` does
(`Simulation.CarCount`). Spawning at least one car needs every road to have
a lane, because `randint(0, lanes - 1)` raises otherwise
(`Simulation.LanesDrawable`).

Light durations are fields of `Lights.Light`, as in `TrafficLight`. The light
lemmas hold for any positive durations, and `Lights.Fresh` fixes them at
200/100.

## Model

| member | source | states |
|---|---|---|
| Lights.Fresh | trafficflowsimulation.py:47-52 | a new light is green, its timer is 0, its durations are 200/100, and it satisfies the light invariant |
| Lights.Update | trafficflowsimulation.py:54-63 | one tick keeps the durations and keeps the invariant. The colour flips exactly when the incremented timer reaches the current colour's duration; the timer then resets to 0, otherwise it grows by one |
| Lights.ClosedForm | trafficflowsimulation.py:54-63 | after `n` ticks from the start of its cycle, a light is at phase `n mod (green + red)`: green with timer `p` below `green`, red with timer `p - green` above it |
| Lights.Periodic | trafficflowsimulation.py:54-63 | the light sequence repeats with period `green + red` |
| Lights.GreenSchedule | trafficflowsimulation.py:54-63 | the light is green after `n` ticks if and only if `n mod (green + red) < green` |
| Lights.GreenThenRed | trafficflowsimulation.py:48-63 | starting green, the light is green for exactly the first `green` ticks. It then turns red with timer 0, stays red for `red` ticks and is back at its start after `green + red` ticks |
| Lights.AfterValid | trafficflowsimulation.py:54-63 | every state reached from a valid light is valid, i.e. the timer stays in `[0, duration)` |
| Lights.AfterAdd | trafficflowsimulation.py:54-63 | `a` ticks followed by `b` ticks are `a + b` ticks |
| Arith.Min | trafficflowsimulation.py:88-89 | `min` returns one of its arguments and is at most both |
| Arith.Wrap | trafficflowsimulation.py:90-91 | the wrapped position lies in `[0, length)` |
| Arith.WrapUnique | trafficflowsimulation.py:90-91 | the wrapped position is the only value in `[0, length)` that differs from the advanced position by a whole number of lengths |
| Arith.WrapShift | trafficflowsimulation.py:90-91 | advancing by whole laps does not change the wrapped position |
| Arith.ModInRange | trafficflowsimulation.py:92 | the normalised lane is in `[0, lanes)`, and a lane already in range is unchanged |
| Cars.Advance | trafficflowsimulation.py:87-92 | one car's update. The new speed is at most the old speed, `max_speed` and the leader's speed, and equals one of them. The position ends on the road and the lane in range; an in-range lane is unchanged |
| Cars.MoveCars | trafficflowsimulation.py:86-92 | the pass as a left fold in list order, each car advanced with the already updated previous car as leader; it keeps the number of cars, and its speeds and places are stated by `MoveCarsSpeeds`, `MoveCarsSpeedCaps` and `MoveCarsPlaces` |
| Cars.CountCrossed | trafficflowsimulation.py:94-96 | the number of cars credited by one pass: at most one per car, and non-zero only if some car is in the last unit band (exactly characterised by `CountCrossedBounds`) |
| Cars.Crossed | trafficflowsimulation.py:95 | a car is credited when its wrapped position is at least `length - 1` |
| Cars.UpdateCarAt | trafficflowsimulation.py:86-92 | run on a list whose first `i` cars are already updated and whose car `i` is untouched, the loop body's result for car `i` is the next step of the left-to-right pass: the pass over cars `0..i` is the pass over cars `0..i-1` followed by this car |
| Cars.MoveCarsInPlace | trafficflowsimulation.py:86-96 | the in-place loop over one green road ends with exactly the left-to-right pass `MoveCars`, and its counter equals the number of credited cars in the result |
| Cars.MoveCarsSpeedCaps | trafficflowsimulation.py:86-89 | after the pass every speed is at most `max_speed` and at most its old value, and speeds never increase along the list. Non-negative speeds stay non-negative |
| Cars.MoveCarsSpeeds | trafficflowsimulation.py:86-89 | independent description: car `i` ends at the slowest original speed among cars `0..i`, capped by `max_speed` |
| Cars.MoveCarsPlaces | trafficflowsimulation.py:90-92 | after the pass each car sits at its old position plus its new speed, wrapped into `[0, length)`. Its lane is its old lane mod `lanes`, in range, and unchanged if it was already in range |
| Cars.CountCrossedBounds | trafficflowsimulation.py:94-96 | a pass credits at most one crossing per car. It credits none if and only if no car is in the last unit, and one per car if and only if every car is |
| Cars.CrossedBand | trafficflowsimulation.py:90-96 | a moved car is credited if and only if its wrapped position lies in `[length - 1, length)` |
| Roads.NewRoad | trafficflowsimulation.py:21-27 | a new road has the given geometry, a new light (green, timer 0, durations 200/100) and no cars |
| Roads.Spawn | trafficflowsimulation.py:75-81 | spawning replaces the road's cars with one car per draw, all at position 0 with the drawn lane and speed. Geometry and light are unchanged |
| Roads.SpawnValid | trafficflowsimulation.py:77-81 | spawning from in-range draws gives a road whose cars are on the road, at speeds in `[0, max_speed]`, in existing lanes |
| Roads.SpawnResets | trafficflowsimulation.py:75-76 | the old cars do not matter: spawning discards them and never appends |
| Roads.MoveRoad | trafficflowsimulation.py:84-96 | a red road is returned unchanged and credits nothing. A green road runs the car pass and credits its crossings. The light is not touched |
| Roads.MoveRoadValid | trafficflowsimulation.py:84-92 | moving a valid road keeps every car on the road, at a speed in `[0, max_speed]`, in an existing lane |
| Simulation.CarCount | trafficflowsimulation.py:77 | the number of cars `range(num_cars)` spawns per road: the least non-negative count that is at least `num_cars`, i.e. `num_cars` or 0 |
| Simulation.LanesDrawable | trafficflowsimulation.py:77-78 | the input domain of `randint(0, lanes - 1)`: when at least one car is spawned, every road has a lane |
| Simulation.GenerateCars | trafficflowsimulation.py:74-81 | every road ends with exactly `num_cars` cars (none when `num_cars` is negative) at position 0, taken from its draws. Geometry, lights, `max_speed` and the counter are unchanged |
| Simulation.GenerateValid | trafficflowsimulation.py:74-81 | generating from in-range draws on configured roads with valid lights gives a valid engine |
| Simulation.GenerateIdempotent | trafficflowsimulation.py:74-81 | generating again with the same draws changes nothing |
| Simulation.New | trafficflowsimulation.py:66-72 | construction keeps every road's length, lanes and light, puts on road `i` exactly `num_cars` cars (none when negative) where car `j` is at position 0 with the lane and speed of draw `j`, and starts the counter at 0 |
| Simulation.NewValid | trafficflowsimulation.py:66-81 | construction over configured roads with valid lights, from draws in `[0, lanes)` x `[1, max_speed]`, gives a valid engine |
| Simulation.MoveRoads | trafficflowsimulation.py:84-96 | phase one keeps every road's geometry, light and number of cars, leaves roads not yet reached alone, and never lowers the counter |
| Simulation.MoveRoadsEffect | trafficflowsimulation.py:84-96 | phase one moves each road by `Roads.MoveRoad`. The counter grows by exactly the crossings on the roads that were green |
| Simulation.UpdateLights | trafficflowsimulation.py:98-100 | phase two ticks every light exactly once and leaves cars and geometry alone |
| Simulation.Tick | trafficflowsimulation.py:83-100 | a tick keeps the road count, geometry and number of cars, ticks every light once, and never lowers the counter |
| Simulation.TickCars | trafficflowsimulation.py:83-96 | a road red at the start of the tick keeps its cars. A road green at the start runs the car pass, even if its light turns red in this tick. The counter grows by exactly the green roads' crossings |
| Simulation.TickValid | trafficflowsimulation.py:83-100 | a tick keeps the engine invariant: valid lights, and cars on the road at speeds in `[0, max_speed]` in existing lanes |
| Simulation.Run | trafficflowsimulation.py:83-100 | repeated ticks keep the road count and configuration and never lower the counter |
| Simulation.RunRoads | trafficflowsimulation.py:98-100 | after `n` ticks each road keeps its geometry and number of cars, and its light has been updated exactly `n` times |
| Simulation.RunValid | trafficflowsimulation.py:83-100 | every engine reached from a valid one is valid |
| Simulation.RunMonotone | trafficflowsimulation.py:94-96 | the crossing counter never decreases: after `m <= n` ticks it is at most its value after `n` |
| Simulation.RunLightSchedule | trafficflowsimulation.py:48-63 | a road with a new light is green after `n` ticks if and only if `n mod 300 < 200`, whatever the cars do |
| Scenarios.WrapIsNotCredited | trafficflowsimulation.py:90-96 | a car at 38 with speed 3 on a 40-unit road wraps to 1 and is not credited |
| Scenarios.ExactLapIsNotCredited | trafficflowsimulation.py:90-96 | a car at 39 with speed 1 wraps to exactly 0 and is not credited |
| Scenarios.LandingInLastUnitIsCredited | trafficflowsimulation.py:90-96 | a car at 37 with speed 2 lands on 39 and is credited once |
| Scenarios.SecondCarIsCapped | trafficflowsimulation.py:86-89 | with speeds 5 then 10 and `max_speed` 5, the second car is capped to 5 |
| Scenarios.LeaderIsListOrder | trafficflowsimulation.py:86-88 | a slow car listed first holds back a faster car that is physically ahead of it |
| Scenarios.RedRoadIsFrozen | trafficflowsimulation.py:84-100 | on a red road nothing moves and nothing is credited, but the light still ticks, here back to green |
| Scenarios.ParkedCarTick | trafficflowsimulation.py:90-96 | a stopped car at 39.5 on a green road stays there and adds one to the counter |
| Scenarios.ParkedCarIsCreditedEachTick | trafficflowsimulation.py:94-96 | the same stopped car is credited on each of two consecutive ticks of a new road, so the counter reaches 2 |
| Scenarios.NegativeFleetSpawnsNothing | trafficflowsimulation.py:74-81 | a negative `num_cars` leaves every road empty, even a road without lanes |
| Scenarios.FreshLightCycle | trafficflowsimulation.py:48-63 | a new light turns red after exactly 200 ticks and is back to new after 300 |

## Left out

- Drawing: `Road.draw`, the pygame screen, fonts, the main loop, event handling and frame pacing are not modelled. `Simulation.Run` stands for repeated calls of `update`.
- Wall-clock time: `start_time` and `get_update_time` are not modelled.
- Randomness: `randint` and `uniform` are replaced by explicit draws passed in as parameters.
- Car names are not modelled. They are diagnostic only.
- The intersection list of a road is rendering data only and is not modelled.
- Floating-point rounding is not modelled. Positions and speeds are exact reals, so a tiny negative position that Python's float `%` would round to exactly `length` is not represented.
- Tick, Run and the car pass require a positive length and lane count on every road. `update` divides only when a car on a green road moves: then a zero length or lane count raises `ZeroDivisionError`, while a red or empty road with such geometry passes through a tick unharmed. Tick and Run say nothing about engines holding such a degenerate road, nor about negative lengths or lane counts, which no caller builds. `Simulation.GenerateCars` and `Simulation.New` accept roads of zero length, and roads without lanes when no car is spawned, as `generate_cars` does.
- Aliasing: the model treats the road list as distinct values. Putting the same `Road` object twice in the list, or sharing one light between two roads, would make `update` tick it twice per tick.
- Simulation.GenerateCars and Simulation.New require every road to have a lane when at least one car is spawned. `generate_cars` raises `ValueError` from `randint(0, lanes - 1)` there; the model does not represent that error, it excludes the input.
- Simulation.NewValid covers draws in `[1, max_speed]` only, for the same reason as `GenerateValid` below.
- Simulation.GenerateValid covers draws in `[1, max_speed]` only. When `max_speed < 1`, `uniform(1, max_speed)` can return speeds above `max_speed`, and the invariant holds only once the first green tick has capped them.

=== FILE: arith.dfy ===
/** Numeric helpers shared by the simulation: Python's `min` on two speeds,
    Python's `%` of a float position by a positive integer road length, and
    facts about `%` on integers (lanes, light periods). */
module Arith {

  /** Python's `min(a, b)`: the first argument unless the second is strictly smaller. */
  function Min(a: real, b: real): (m: real)
    ensures m <= a && m <= b
    ensures m == a || m == b
  {
    if b < a then b else a
  }

  /** How many whole road lengths Python's `%` removes from `x`. */
  function Laps(x: real, length: int): int
    requires length > 0
  {
    (x / length as real).Floor
  }

  /** Python's `x % length` for a float `x` and a positive integer `length`:
      the value in `[0, length)` that differs from `x` by a whole number of
      lengths (floating-point rounding is not modelled). */
  function Wrap(x: real, length: int): (r: real)
    requires length > 0
    ensures 0.0 <= r < length as real
  {
    FloorRemainder(x, length as real);
    x - (Laps(x, length) as real) * (length as real)
  }

  /** Removing `Floor(x / len)` lengths from `x` leaves a value in `[0, len)`. */
  lemma FloorRemainder(x: real, len: real)
    requires len > 0.0
    ensures 0.0 <= x - ((x / len).Floor as real) * len < len
  {
    var q := x / len;
    var k := q.Floor as real;
    var k1 := k + 1.0;
    assert q * len == x;
    ScaleMono(k, q, len);
    ScaleStrict(q, k1, len);
    assert q * len < k1 * len;
    assert x < k1 * len;
    assert k1 * len == k * len + len;
  }

  /** Scaling by a positive length preserves `<=`. */
  lemma ScaleMono(a: real, b: real, c: real)
    requires a <= b && c > 0.0
    ensures a * c <= b * c
  {
    assert b * c - a * c == (b - a) * c;
  }

  /** Scaling by a positive length preserves `<`. */
  lemma ScaleStrict(a: real, b: real, c: real)
    requires a < b && c > 0.0
    ensures a * c < b * c
  {
    assert b * c - a * c == (b - a) * c;
  }

  /** `Wrap` picks the one representative in `[0, length)`: any `y` in range
      that differs from `x` by `k` lengths is the result. */
  lemma WrapUnique(x: real, y: real, k: int, length: int)
    requires length > 0
    requires 0.0 <= y < length as real
    requires x == y + (k as real) * (length as real)
    ensures Wrap(x, length) == y
  {
    var len := length as real;
    var q := x / len;
    assert q == y / len + k as real;
    assert 0.0 <= y / len < 1.0;
    assert q.Floor == k;
  }

  /** A value already on the road is left where it is. */
  lemma WrapInRange(x: real, length: int)
    requires length > 0
    requires 0.0 <= x < length as real
    ensures Wrap(x, length) == x
  {
    WrapUnique(x, x, 0, length);
  }

  /** Shifting by whole lengths does not change the wrapped value. */
  lemma WrapShift(x: real, k: int, length: int)
    requires length > 0
    ensures Wrap(x + (k as real) * (length as real), length) == Wrap(x, length)
  {
    var r := Wrap(x, length);
    var j := Laps(x, length);
    var shifted := x + (k as real) * (length as real);
    WrapLaps(x, length);
    assert ((j + k) as real) * (length as real) == (j as real) * (length as real) + (k as real) * (length as real);
    WrapUnique(shifted, r, j + k, length);
  }

  /** `x` is its wrapped value plus a whole number of lengths. */
  lemma WrapLaps(x: real, length: int)
    requires length > 0
    ensures x == Wrap(x, length) + (Laps(x, length) as real) * (length as real)
  {
  }

  /** Adding one period does not change the remainder. */
  lemma ModShift(n: nat, period: int)
    requires period > 0
    ensures (n + period) % period == n % period
  {
    var q := n / period;
    assert n == q * period + n % period;
    assert n + period == (q + 1) * period + n % period;
    ModUnique(n + period, period, q + 1, n % period);
  }

  /** The remainder is the one `r` in `[0, p)` with `a == q * p + r`. */
  lemma ModUnique(a: int, p: int, q: int, r: int)
    requires p > 0 && 0 <= r < p
    requires a == q * p + r
    ensures a % p == r
  {
    var q0 := a / p;
    var r0 := a % p;
    assert a == q0 * p + r0;
    assert (q - q0) * p == r0 - r;
    if q > q0 {
      MulAtLeast(q - q0, p);
    } else if q < q0 {
      MulAtLeast(q0 - q, p);
    }
  }

  /** A positive multiple of `p` is at least `p`. */
  lemma MulAtLeast(d: int, p: int)
    requires d >= 1 && p > 0
    ensures d * p >= p
  {
    assert d * p == (d - 1) * p + p;
    assert (d - 1) * p >= 0;
  }

  /** Python's `%` of an integer by a positive modulus lands in
      `[0, p)` and leaves a value already there unchanged. */
  lemma ModInRange(a: int, p: int)
    requires p > 0
    ensures 0 <= a % p < p
    ensures 0 <= a < p ==> a % p == a
  {
    if 0 <= a < p {
      ModUnique(a, p, 0, a);
    }
  }
}

=== FILE: cars.dfy ===
/** The cars of one road and the pass that moves them on a green tick
    (`Car` and the inner loop of `TrafficSimulation.update` in
    trafficflowsimulation.py). */
module Cars {
  import opened Arith

  /** A car's state; its diagnostic name is not modelled. */
  datatype Car = Car(position: real, speed: real, lane: int)

  datatype Option<T> = None | Some(value: T)

  /** One car's update in the pass: cap by the leader's speed when there is a
      leader, cap by `maxSpeed`, advance round the road, normalise the lane. */
  function Advance(car: Car, leader: Option<real>, maxSpeed: real, length: int, lanes: int): (c: Car)
    requires length > 0 && lanes > 0
    ensures c.speed <= car.speed && c.speed <= maxSpeed
    ensures leader.Some? ==> c.speed <= leader.value
    ensures c.speed == car.speed || c.speed == maxSpeed || (leader.Some? && c.speed == leader.value)
    ensures 0.0 <= c.position < length as real
    ensures 0 <= c.lane < lanes
    ensures 0 <= car.lane < lanes ==> c.lane == car.lane
  {
    var capped := if leader.Some? then Min(car.speed, leader.value) else car.speed;
    var speed := Min(capped, maxSpeed);
    ModInRange(car.lane, lanes);
    Car(Wrap(car.position + speed, length), speed, car.lane % lanes)
  }

  /** The speed of the last car already moved, if any. */
  function LastSpeed(done: seq<Car>): Option<real>
  {
    if |done| == 0 then None else Some(done[|done| - 1].speed)
  }

  /** The whole pass over a green road, as a left fold over the cars in list
      order: each car is capped by the speed its predecessor has after its own
      update, whatever the two cars' positions on the road. */
  function MoveCars(cars: seq<Car>, maxSpeed: real, length: int, lanes: int): (moved: seq<Car>)
    requires length > 0 && lanes > 0
    ensures |moved| == |cars|
    decreases |cars|
  {
    if |cars| == 0 then []
    else
      var done := MoveCars(cars[..|cars| - 1], maxSpeed, length, lanes);
      done + [Advance(cars[|cars| - 1], LastSpeed(done), maxSpeed, length, lanes)]
  }

  /** The speed facts the pass guarantees for `moved` against `cars`: each
      speed is capped by `maxSpeed` and by the car's own old speed, speeds
      never increase along the list, and non-negative speeds stay
      non-negative. */
  predicate SpeedsCapped(cars: seq<Car>, moved: seq<Car>, maxSpeed: real)
    requires |moved| == |cars|
  {
    && (forall i :: 0 <= i < |cars| ==> moved[i].speed <= maxSpeed && moved[i].speed <= cars[i].speed)
    && (forall i, j :: 0 <= j < i < |cars| ==> moved[i].speed <= moved[j].speed)
    && ((0.0 <= maxSpeed && forall i :: 0 <= i < |cars| ==> 0.0 <= cars[i].speed) ==>
          forall i :: 0 <= i < |moved| ==> 0.0 <= moved[i].speed)
  }

  /** Speeds after the pass: car `i` is capped by the new speed of car
      `i - 1`, so speeds never increase along the list, whatever the cars'
      positions on the road. */
  lemma {:induction false} MoveCarsSpeedCaps(cars: seq<Car>, maxSpeed: real, length: int, lanes: int)
    requires length > 0 && lanes > 0
    ensures SpeedsCapped(cars, MoveCars(cars, maxSpeed, length, lanes), maxSpeed)
    decreases |cars|
  {
    if |cars| > 0 {
      var n := |cars| - 1;
      MoveCarsSpeedCaps(cars[..n], maxSpeed, length, lanes);
      SpeedsCappedStep(cars, MoveCars(cars[..n], maxSpeed, length, lanes), maxSpeed, length, lanes);
    }
  }

  /** Appending the last car's `Advance` to a capped prefix keeps the caps. */
  lemma SpeedsCappedStep(cars: seq<Car>, done: seq<Car>, maxSpeed: real, length: int, lanes: int)
    requires length > 0 && lanes > 0
    requires |cars| > 0 && |done| == |cars| - 1
    requires SpeedsCapped(cars[..|cars| - 1], done, maxSpeed)
    ensures SpeedsCapped(cars, done + [Advance(cars[|cars| - 1], LastSpeed(done), maxSpeed, length, lanes)], maxSpeed)
  {
    var n := |cars| - 1;
    var moved := done + [Advance(cars[n], LastSpeed(done), maxSpeed, length, lanes)];
    assert forall i :: 0 <= i < n ==> moved[i] == done[i] && cars[..n][i] == cars[i];
  }

  /** The place facts the pass guarantees for `moved` against `cars`: each
      car advances by its new speed modulo the road length, ends on the
      road, and its lane is normalised into `[0, lanes)` (unchanged when it
      already was in range). */
  predicate PlacesWrapped(cars: seq<Car>, moved: seq<Car>, length: int, lanes: int)
    requires |moved| == |cars| && length > 0 && lanes > 0
  {
    forall i :: 0 <= i < |cars| ==>
      && moved[i].position == Wrap(cars[i].position + moved[i].speed, length)
      && 0.0 <= moved[i].position < length as real
      && moved[i].lane == cars[i].lane % lanes
      && 0 <= moved[i].lane < lanes
      && (0 <= cars[i].lane < lanes ==> moved[i].lane == cars[i].lane)
  }

  /** Places after the pass: every car is on the road, moved by its own new
      speed, in a lane that exists. */
  lemma {:induction false} MoveCarsPlaces(cars: seq<Car>, maxSpeed: real, length: int, lanes: int)
    requires length > 0 && lanes > 0
    ensures PlacesWrapped(cars, MoveCars(cars, maxSpeed, length, lanes), length, lanes)
    decreases |cars|
  {
    if |cars| > 0 {
      var n := |cars| - 1;
      MoveCarsPlaces(cars[..n], maxSpeed, length, lanes);
      PlacesWrappedStep(cars, MoveCars(cars[..n], maxSpeed, length, lanes), maxSpeed, length, lanes);
    }
  }

  /** Appending the last car's `Advance` to a wrapped prefix keeps it wrapped. */
  lemma PlacesWrappedStep(cars: seq<Car>, done: seq<Car>, maxSpeed: real, length: int, lanes: int)
    requires length > 0 && lanes > 0
    requires |cars| > 0 && |done| == |cars| - 1
    requires PlacesWrapped(cars[..|cars| - 1], done, length, lanes)
    ensures PlacesWrapped(cars, done + [Advance(cars[|cars| - 1], LastSpeed(done), maxSpeed, length, lanes)], length, lanes)
  {
    var n := |cars| - 1;
    var moved := done + [Advance(cars[n], LastSpeed(done), maxSpeed, length, lanes)];
    assert forall i :: 0 <= i < n ==> moved[i] == done[i] && cars[..n][i] == cars[i];
  }

  /** The slowest of the first `i + 1` speeds. */
  function SlowestUpTo(cars: seq<Car>, i: nat): real
    requires i < |cars|
  {
    if i == 0 then cars[0].speed else Min(SlowestUpTo(cars, i - 1), cars[i].speed)
  }

  /** `SlowestUpTo` only looks at the prefix it is asked about. */
  lemma {:induction false} SlowestUpToPrefix(cars: seq<Car>, n: nat, i: nat)
    requires i < n <= |cars|
    ensures SlowestUpTo(cars[..n], i) == SlowestUpTo(cars, i)
  {
    if i > 0 {
      SlowestUpToPrefix(cars, n, i - 1);
    }
  }

  /** Independent description of the pass's speeds: car `i` ends up at the
      slowest original speed among cars `0..i`, capped by `maxSpeed`. */
  lemma {:induction false} MoveCarsSpeeds(cars: seq<Car>, maxSpeed: real, length: int, lanes: int)
    requires length > 0 && lanes > 0
    ensures forall i :: 0 <= i < |cars| ==>
              MoveCars(cars, maxSpeed, length, lanes)[i].speed == Min(SlowestUpTo(cars, i), maxSpeed)
    decreases |cars|
  {
    if |cars| > 0 {
      var n := |cars| - 1;
      var front := cars[..n];
      var done := MoveCars(front, maxSpeed, length, lanes);
      var moved := MoveCars(cars, maxSpeed, length, lanes);
      MoveCarsSpeeds(front, maxSpeed, length, lanes);
      assert moved == done + [Advance(cars[n], LastSpeed(done), maxSpeed, length, lanes)];
      forall i | 0 <= i < n
        ensures moved[i].speed == Min(SlowestUpTo(cars, i), maxSpeed)
      {
        assert moved[i] == done[i];
        SlowestUpToPrefix(cars, n, i);
      }
      if n > 0 {
        SlowestUpToPrefix(cars, n, n - 1);
        assert done[n - 1].speed == Min(SlowestUpTo(cars, n - 1), maxSpeed);
      }
    }
  }

  /** A car is credited as having crossed when its wrapped position lies in
      the last unit of the road. */
  predicate Crossed(car: Car, length: int)
  {
    car.position >= (length - 1) as real
  }

  /** How many of `cars` are credited as crossed, counted left to right. */
  function CountCrossed(cars: seq<Car>, length: int): (n: nat)
    ensures n <= |cars|
    ensures n == 0 || exists i :: 0 <= i < |cars| && Crossed(cars[i], length)
    decreases |cars|
  {
    if |cars| == 0 then 0
    else CountCrossed(cars[..|cars| - 1], length) + (if Crossed(cars[|cars| - 1], length) then 1 else 0)
  }

  /** The count is at most the number of cars; it is zero exactly when no car
      is credited and full exactly when every car is. */
  lemma {:induction false} CountCrossedBounds(cars: seq<Car>, length: int)
    ensures CountCrossed(cars, length) <= |cars|
    ensures CountCrossed(cars, length) == 0 <==> forall i :: 0 <= i < |cars| ==> !Crossed(cars[i], length)
    ensures CountCrossed(cars, length) == |cars| <==> forall i :: 0 <= i < |cars| ==> Crossed(cars[i], length)
    decreases |cars|
  {
    if |cars| > 0 {
      var n := |cars| - 1;
      var front := cars[..n];
      CountCrossedBounds(front, length);
      assert forall i :: 0 <= i < n ==> front[i] == cars[i];
    }
  }

  /** On a road of positive length, a moved car is credited exactly when it
      ends the tick in the final unit band `[length - 1, length)`; a lap
      that wraps past the end is not credited by itself. */
  lemma CrossedBand(cars: seq<Car>, maxSpeed: real, length: int, lanes: int, i: int)
    requires length > 0 && lanes > 0
    requires 0 <= i < |cars|
    ensures var c := MoveCars(cars, maxSpeed, length, lanes)[i];
              Crossed(c, length) <==> (length - 1) as real <= c.position < length as real
  {
    MoveCarsPlaces(cars, maxSpeed, length, lanes);
  }

  /** Moving one more car extends the fold by that car's `Advance`. */
  lemma MoveCarsStep(cars: seq<Car>, i: nat, maxSpeed: real, length: int, lanes: int)
    requires length > 0 && lanes > 0
    requires i < |cars|
    ensures MoveCars(cars[..i + 1], maxSpeed, length, lanes)
         == MoveCars(cars[..i], maxSpeed, length, lanes)
            + [Advance(cars[i], LastSpeed(MoveCars(cars[..i], maxSpeed, length, lanes)), maxSpeed, length, lanes)]
  {
    assert cars[..i + 1][..i] == cars[..i];
  }

  /** Counting one more car adds one exactly when it is credited. */
  lemma CountCrossedSnoc(cars: seq<Car>, car: Car, length: int)
    ensures CountCrossed(cars + [car], length)
         == CountCrossed(cars, length) + (if Crossed(car, length) then 1 else 0)
  {
    assert (cars + [car])[..|cars|] == cars;
  }

  /** The body of `update`'s inner loop for car `i`, run on the partly updated
      list: it reads the speed car `i - 1` already has in the list, which is
      that car's speed after its own update, so the result is the next step
      of the fold. */
  method UpdateCarAt(cars: seq<Car>, moved: seq<Car>, i: nat, maxSpeed: real, length: int, lanes: int)
      returns (updated: Car)
    requires length > 0 && lanes > 0
    requires i < |cars| == |moved|
    requires moved[..i] == MoveCars(cars[..i], maxSpeed, length, lanes) && moved[i] == cars[i]
    ensures MoveCars(cars[..i + 1], maxSpeed, length, lanes) == MoveCars(cars[..i], maxSpeed, length, lanes) + [updated]
  {
    var car := moved[i];
    var speed := car.speed;
    if i != 0 {
      speed := Min(speed, moved[i - 1].speed);
    }
    speed := Min(speed, maxSpeed);
    var position := Wrap(car.position + speed, length);
    var lane := car.lane % lanes;
    updated := Car(position, speed, lane);
    MoveCarsStep(cars, i, maxSpeed, length, lanes);
    assert i != 0 ==> moved[i - 1] == moved[..i][i - 1];
  }

  /** The state of the in-place pass after `i` iterations: the first `i`
      cars are the fold's result, the rest are untouched, and the counter
      holds the credits of the cars moved so far. */
  predicate PassedUpTo(cars: seq<Car>, moved: seq<Car>, crossed: nat, i: nat, maxSpeed: real, length: int, lanes: int)
    requires length > 0 && lanes > 0
  {
    && i <= |cars| == |moved|
    && moved == MoveCars(cars[..i], maxSpeed, length, lanes) + cars[i..]
    && crossed == CountCrossed(MoveCars(cars[..i], maxSpeed, length, lanes), length)
  }

  /** Part way through the pass, the moved prefix is the fold and car `i`
      is still as it was. */
  lemma PassedSplit(cars: seq<Car>, moved: seq<Car>, crossed: nat, i: nat, maxSpeed: real, length: int, lanes: int)
    requires length > 0 && lanes > 0
    requires PassedUpTo(cars, moved, crossed, i, maxSpeed, length, lanes) && i < |cars|
    ensures moved[..i] == MoveCars(cars[..i], maxSpeed, length, lanes) && moved[i] == cars[i]
  {
    assert |MoveCars(cars[..i], maxSpeed, length, lanes)| == i;
  }

  /** One iteration of the in-place pass extends the fold by one car. */
  lemma PassedStep(cars: seq<Car>, moved: seq<Car>, crossed: nat, i: nat, updated: Car, maxSpeed: real, length: int, lanes: int)
    requires length > 0 && lanes > 0
    requires PassedUpTo(cars, moved, crossed, i, maxSpeed, length, lanes) && i < |cars|
    requires MoveCars(cars[..i + 1], maxSpeed, length, lanes) == MoveCars(cars[..i], maxSpeed, length, lanes) + [updated]
    ensures PassedUpTo(cars, moved[i := updated], crossed + (if Crossed(updated, length) then 1 else 0),
                       i + 1, maxSpeed, length, lanes)
  {
    var done := MoveCars(cars[..i], maxSpeed, length, lanes);
    assert |done| == i;
    assert moved[i := updated] == (done + [updated]) + cars[i + 1..];
    CountCrossedSnoc(done, updated, length);
  }

  /** The inner loop of `update`: the list is updated in place, left to right, and
      the crossing counter is bumped inside the loop. */
  method MoveCarsInPlace(cars: seq<Car>, maxSpeed: real, length: int, lanes: int)
      returns (moved: seq<Car>, crossed: nat)
    requires length > 0 && lanes > 0
    ensures moved == MoveCars(cars, maxSpeed, length, lanes)
    ensures crossed == CountCrossed(moved, length)
  {
    moved := cars;
    crossed := 0;
    var i := 0;
    assert cars[..0] == [];
    while i < |cars|
      invariant PassedUpTo(cars, moved, crossed, i, maxSpeed, length, lanes)
    {
      PassedSplit(cars, moved, crossed, i, maxSpeed, length, lanes);
      var updated := UpdateCarAt(cars, moved, i, maxSpeed, length, lanes);
      PassedStep(cars, moved, crossed, i, updated, maxSpeed, length, lanes);
      if Crossed(updated, length) {
        crossed := crossed + 1;
      }
      moved := moved[i := updated];
      i := i + 1;
    }
    assert cars[..i] == cars;
  }
}

=== FILE: lights.dfy ===
/** The per-road traffic light: a two-state GREEN/RED machine driven by a
    tick counter (`TrafficLight` in trafficflowsimulation.py). */
module Lights {
  import opened Arith

  datatype Color = Green | Red

  /** `timer` counts the ticks spent in the current color; the durations
      are the light's own fixed configuration. */
  datatype Light = Light(color: Color, timer: int, greenDuration: int, redDuration: int)

  /** Frames a fresh light stays green. */
  const GreenFrames: int := 200

  /** Frames a fresh light stays red. */
  const RedFrames: int := 100

  /** A light at the start of its cycle with the given durations. */
  function Start(green: int, red: int): Light
  {
    Light(Green, 0, green, red)
  }

  /** The light a new road is built with. */
  function Fresh(): (l: Light)
    ensures Valid(l)
    ensures l.color == Green && l.timer == 0
    ensures l == Start(GreenFrames, RedFrames)
  {
    Light(Green, 0, GreenFrames, RedFrames)
  }

  /** How long the light stays in its current color. */
  function Duration(l: Light): int
  {
    if l.color == Green then l.greenDuration else l.redDuration
  }

  /** The invariant between ticks: positive durations and a timer that has
      not yet reached the current color's duration. */
  predicate Valid(l: Light)
  {
    && l.greenDuration > 0
    && l.redDuration > 0
    && 0 <= l.timer < Duration(l)
  }

  /** One tick of the light. */
  function Update(l: Light): (u: Light)
    ensures u.greenDuration == l.greenDuration && u.redDuration == l.redDuration
    ensures Valid(l) ==> Valid(u)
    ensures u.color == l.color <==> l.timer + 1 < Duration(l)
    ensures u.color == l.color ==> u.timer == l.timer + 1
    ensures u.color != l.color ==> u.timer == 0
  {
    var timer := l.timer + 1;
    if l.color == Green then
      if timer >= l.greenDuration then l.(color := Red, timer := 0) else l.(timer := timer)
    else
      if timer >= l.redDuration then l.(color := Green, timer := 0) else l.(timer := timer)
  }

  /** The light after `n` ticks. */
  function After(l: Light, n: nat): Light
  {
    if n == 0 then l else Update(After(l, n - 1))
  }

  /** Where in its cycle a light started with durations `green`, `red`
      stands `p` ticks into the cycle. */
  function Phase(green: int, red: int, p: int): (l: Light)
    requires 0 < green && 0 < red
    requires 0 <= p < green + red
    ensures Valid(l)
  {
    if p < green then Light(Green, p, green, red) else Light(Red, p - green, green, red)
  }

  /** Ticks compose: `a` ticks followed by `b` ticks are `a + b` ticks. */
  lemma {:induction false} AfterAdd(l: Light, a: nat, b: nat)
    ensures After(l, a + b) == After(After(l, a), b)
    decreases b
  {
    if b > 0 {
      AfterAdd(l, a, b - 1);
      assert After(l, a + b) == Update(After(l, a + b - 1));
    }
  }

  /** Ticking once and then `n` times is ticking `n + 1` times. */
  lemma AfterUpdate(l: Light, n: nat)
    ensures After(Update(l), n) == After(l, n + 1)
  {
    AfterAdd(l, 1, n);
  }

  /** Within the first cycle the light is exactly at phase `p`. */
  lemma {:induction false} WithinCycle(green: int, red: int, p: nat)
    requires 0 < green && 0 < red
    requires p < green + red
    ensures After(Start(green, red), p) == Phase(green, red, p)
  {
    if p > 0 {
      WithinCycle(green, red, p - 1);
    }
  }

  /** A full cycle of `green + red` ticks brings the light back to its start. */
  lemma CycleReturns(green: int, red: int)
    requires 0 < green && 0 < red
    ensures After(Start(green, red), green + red) == Start(green, red)
  {
    WithinCycle(green, red, green + red - 1);
  }

  /** The colour changes exactly after the green and then the red duration. */
  lemma GreenThenRed(green: int, red: int)
    requires 0 < green && 0 < red
    ensures After(Start(green, red), green) == Light(Red, 0, green, red)
    ensures forall p :: 0 <= p < green ==> After(Start(green, red), p).color == Green
    ensures forall p :: green <= p < green + red ==> After(Start(green, red), p).color == Red
    ensures After(Start(green, red), green + red) == Start(green, red)
  {
    WithinCycle(green, red, green);
    forall p | 0 <= p < green + red
      ensures After(Start(green, red), p) == Phase(green, red, p)
    {
      WithinCycle(green, red, p);
    }
    CycleReturns(green, red);
  }

  /** The light's state is a function of the tick count modulo the period. */
  lemma {:induction false} ClosedForm(green: int, red: int, n: nat)
    requires 0 < green && 0 < red
    ensures After(Start(green, red), n) == Phase(green, red, n % (green + red))
    decreases n
  {
    var period := green + red;
    if n < period {
      WithinCycle(green, red, n);
      ModUnique(n, period, 0, n);
    } else {
      var start := Start(green, red);
      var rest: nat := n - period;
      ClosedForm(green, red, rest);
      ModShift(rest, period);
      assert n % period == rest % period;
      AfterAdd(start, period, rest);
      CycleReturns(green, red);
      assert After(start, n) == After(start, rest);
    }
  }

  /** The colour sequence repeats with period `green + red`. */
  lemma Periodic(green: int, red: int, n: nat)
    requires 0 < green && 0 < red
    ensures After(Start(green, red), n + (green + red)) == After(Start(green, red), n)
  {
    AfterAdd(Start(green, red), green + red, n);
    CycleReturns(green, red);
  }

  /** The light is green exactly in the first `green` ticks of every cycle. */
  lemma GreenSchedule(green: int, red: int, n: nat)
    requires 0 < green && 0 < red
    ensures After(Start(green, red), n).color == Green <==> n % (green + red) < green
  {
    ClosedForm(green, red, n);
  }

  /** Every reachable state satisfies the invariant. */
  lemma {:induction false} AfterValid(l: Light, n: nat)
    requires Valid(l)
    ensures Valid(After(l, n))
  {
    if n > 0 {
      AfterValid(l, n - 1);
    }
  }
}

=== FILE: roads.dfy ===
/** A road: fixed geometry, its own light and its ordered list of cars
    (`Road` in trafficflowsimulation.py, without its drawing code). */
module Roads {
  import opened Cars
  import Lights

  /** The intersection markers are rendering data only and are not modelled. */
  datatype Road = Road(length: int, lanes: int, light: Lights.Light, cars: seq<Car>)

  /** A road as constructed: a fresh green light and no cars. */
  function NewRoad(length: int, lanes: int): (r: Road)
    ensures r.length == length && r.lanes == lanes
    ensures r.light == Lights.Fresh()
    ensures Lights.Valid(r.light) && r.light.color == Lights.Green && r.light.timer == 0
    ensures r.light.greenDuration == Lights.GreenFrames && r.light.redDuration == Lights.RedFrames
    ensures |r.cars| == 0
  {
    Road(length, lanes, Lights.Fresh(), [])
  }

  /** Geometry a tick can work with: the car pass divides by both. */
  predicate Configured(road: Road)
  {
    road.length > 0 && road.lanes > 0
  }

  /** A car at rest between ticks: on the road, at a speed in
      `[0, maxSpeed]`, in an existing lane. */
  predicate Placed(car: Car, road: Road, maxSpeed: real)
  {
    && 0.0 <= car.position < road.length as real
    && 0.0 <= car.speed <= maxSpeed
    && 0 <= car.lane < road.lanes
  }

  /** The road invariant between ticks. */
  predicate Valid(road: Road, maxSpeed: real)
  {
    && Configured(road)
    && Lights.Valid(road.light)
    && forall i :: 0 <= i < |road.cars| ==> Placed(road.cars[i], road, maxSpeed)
  }

  /** The random choices for one spawned car: the lane from
      `randint(0, lanes - 1)` and the speed from `uniform(1, maxSpeed)`. */
  datatype Draw = Draw(lane: int, speed: real)

  /** A draw the random generator can produce for this road. */
  predicate DrawInRange(d: Draw, road: Road, maxSpeed: real)
  {
    0 <= d.lane <= road.lanes - 1 && 1.0 <= d.speed <= maxSpeed
  }

  /** Spawning replaces the road's cars by one new car per draw, all at
      position 0; geometry and light are untouched. */
  function Spawn(road: Road, draws: seq<Draw>): (r: Road)
    ensures r.length == road.length && r.lanes == road.lanes && r.light == road.light
    ensures |r.cars| == |draws|
    ensures forall j :: 0 <= j < |draws| ==>
              r.cars[j].position == 0.0 && r.cars[j].lane == draws[j].lane && r.cars[j].speed == draws[j].speed
  {
    road.(cars := seq(|draws|, j requires 0 <= j < |draws| => Car(0.0, draws[j].speed, draws[j].lane)))
  }

  /** Spawning from in-range draws establishes the road invariant. */
  lemma SpawnValid(road: Road, draws: seq<Draw>, maxSpeed: real)
    requires Configured(road) && Lights.Valid(road.light)
    requires forall j :: 0 <= j < |draws| ==> DrawInRange(draws[j], road, maxSpeed)
    ensures Valid(Spawn(road, draws), maxSpeed)
  {
    var r := Spawn(road, draws);
    forall j | 0 <= j < |r.cars|
      ensures Placed(r.cars[j], r, maxSpeed)
    {
      assert DrawInRange(draws[j], road, maxSpeed);
    }
  }

  /** Spawning is a reset, not an append: the old cars do not matter, so
      spawning twice with the same draws is spawning once. */
  lemma SpawnResets(road: Road, other: seq<Car>, draws: seq<Draw>)
    ensures Spawn(road.(cars := other), draws) == Spawn(road, draws)
    ensures Spawn(Spawn(road, draws), draws) == Spawn(road, draws)
  {
  }

  /** Phase one of a tick for one road: a green road moves its cars and
      reports how many were credited as crossed; a red road is frozen. The
      light itself is not touched here. */
  function MoveRoad(road: Road, maxSpeed: real): (r: (Road, nat))
    requires Configured(road)
    ensures r.0.length == road.length && r.0.lanes == road.lanes && r.0.light == road.light
    ensures |r.0.cars| == |road.cars|
    ensures road.light.color == Lights.Red ==> r.0 == road && r.1 == 0
    ensures road.light.color == Lights.Green ==>
              r.0.cars == MoveCars(road.cars, maxSpeed, road.length, road.lanes)
              && r.1 == CountCrossed(r.0.cars, road.length)
  {
    if road.light.color == Lights.Green then
      var moved := MoveCars(road.cars, maxSpeed, road.length, road.lanes);
      (road.(cars := moved), CountCrossed(moved, road.length))
    else
      (road, 0)
  }

  /** Moving a road keeps every car at rest on the road. */
  lemma MoveRoadValid(road: Road, maxSpeed: real)
    requires Valid(road, maxSpeed)
    ensures Valid(MoveRoad(road, maxSpeed).0, maxSpeed)
  {
    if road.light.color == Lights.Green {
      var cars := road.cars;
      var moved := MoveRoad(road, maxSpeed).0;
      MoveCarsSpeedCaps(cars, maxSpeed, road.length, road.lanes);
      MoveCarsPlaces(cars, maxSpeed, road.length, road.lanes);
      if |cars| > 0 {
        assert Placed(cars[0], road, maxSpeed);
      }
      forall i | 0 <= i < |moved.cars|
        ensures Placed(moved.cars[i], moved, maxSpeed)
      {
        assert Placed(cars[i], road, maxSpeed);
      }
    }
  }
}

=== FILE: scenarios.dfy ===
/** Concrete single-tick situations on the 40-unit, two-lane roads the
    program builds, with `maxSpeed` 5 as in its `main`. */
module Scenarios {
  import opened Arith
  import opened Cars
  import Lights
  import Roads
  import opened Simulation

  /** A green road of length 40 with two lanes carrying `cars`. */
  function GreenRoad(cars: seq<Car>): Roads.Road
  {
    Roads.Road(40, 2, Lights.Fresh(), cars)
  }

  /** A car at 38 with speed 3 wraps to 1; 1 < 39, so nothing is credited
      although the car went past the end of the road. */
  lemma WrapIsNotCredited()
    ensures var t := Tick(Sim([GreenRoad([Car(38.0, 3.0, 0)])], 1, 5.0, 0));
      t.roads[0].cars == [Car(1.0, 3.0, 0)] && t.crossed == 0
  {
    var s := Sim([GreenRoad([Car(38.0, 3.0, 0)])], 1, 5.0, 0);
    WrapUnique(41.0, 1.0, 1, 40);
    TickCars(s);
    assert MoveCars([Car(38.0, 3.0, 0)], 5.0, 40, 2)
        == MoveCars([], 5.0, 40, 2) + [Advance(Car(38.0, 3.0, 0), None, 5.0, 40, 2)];
    assert [Car(38.0, 3.0, 0)][..0] == [];
  }

  /** A car at 39 with speed 1 wraps to exactly 0 and is not credited. */
  lemma ExactLapIsNotCredited()
    ensures var t := Tick(Sim([GreenRoad([Car(39.0, 1.0, 1)])], 1, 5.0, 0));
      t.roads[0].cars == [Car(0.0, 1.0, 1)] && t.crossed == 0
  {
    var s := Sim([GreenRoad([Car(39.0, 1.0, 1)])], 1, 5.0, 0);
    WrapUnique(40.0, 0.0, 1, 40);
    TickCars(s);
    assert [Car(39.0, 1.0, 1)][..0] == [];
  }

  /** A car at 37 with speed 2 lands on 39, in the last unit band, and is
      credited once. */
  lemma LandingInLastUnitIsCredited()
    ensures var t := Tick(Sim([GreenRoad([Car(37.0, 2.0, 0)])], 1, 5.0, 7));
      t.roads[0].cars == [Car(39.0, 2.0, 0)] && t.crossed == 8
  {
    var s := Sim([GreenRoad([Car(37.0, 2.0, 0)])], 1, 5.0, 7);
    WrapInRange(39.0, 40);
    TickCars(s);
    assert [Car(37.0, 2.0, 0)][..0] == [];
  }

  /** A stopped car at 39.5 on a green road stays where it is and is
      credited once more. */
  lemma ParkedCarTick(light: Lights.Light, crossed: nat)
    requires light.color == Lights.Green
    ensures var road := Roads.Road(40, 2, light, [Car(39.5, 0.0, 0)]);
      Tick(Sim([road], 1, 5.0, crossed))
        == Sim([road.(light := Lights.Update(light))], 1, 5.0, crossed + 1)
  {
    var road := Roads.Road(40, 2, light, [Car(39.5, 0.0, 0)]);
    var s := Sim([road], 1, 5.0, crossed);
    WrapInRange(39.5, 40);
    TickCars(s);
    var t := Tick(s);
    assert t.roads[0].cars == [Car(39.5, 0.0, 0)] by {
      assert [Car(39.5, 0.0, 0)][..0] == [];
    }
    assert t.roads == [road.(light := Lights.Update(light))];
  }

  /** The parked car is credited again on every green tick, although it
      never moves: two ticks of a fresh road add two to the counter. */
  lemma ParkedCarIsCreditedEachTick()
    ensures var s := Sim([GreenRoad([Car(39.5, 0.0, 0)])], 1, 5.0, 0);
      Tick(Tick(s)).crossed == 2
  {
    var light := Lights.Fresh();
    ParkedCarTick(light, 0);
    ParkedCarTick(Lights.Update(light), 1);
  }

  /** With speeds 5 then 10 and `maxSpeed` 5, the second car ends at 5. */
  lemma SecondCarIsCapped()
    ensures MoveCars([Car(0.0, 5.0, 0), Car(0.0, 10.0, 1)], 5.0, 40, 2)
         == [Car(5.0, 5.0, 0), Car(5.0, 5.0, 1)]
  {
    var cars := [Car(0.0, 5.0, 0), Car(0.0, 10.0, 1)];
    WrapInRange(5.0, 40);
    assert cars[..1] == [Car(0.0, 5.0, 0)];
    assert cars[..1][..0] == [];
  }

  /** The cap follows list order, not road order: a slow car listed first
      holds back a faster car that is physically ahead of it. */
  lemma LeaderIsListOrder()
    ensures MoveCars([Car(0.0, 1.0, 0), Car(30.0, 4.0, 1)], 5.0, 40, 2)
         == [Car(1.0, 1.0, 0), Car(31.0, 1.0, 1)]
  {
    var cars := [Car(0.0, 1.0, 0), Car(30.0, 4.0, 1)];
    WrapInRange(1.0, 40);
    WrapInRange(31.0, 40);
    assert cars[..1] == [Car(0.0, 1.0, 0)];
    assert cars[..1][..0] == [];
  }

  /** On a red road nothing moves, but the light still ticks. */
  lemma RedRoadIsFrozen()
    ensures var road := Roads.Road(40, 2, Lights.Light(Lights.Red, 99, 200, 100), [Car(12.5, 3.0, 1)]);
      var t := Tick(Sim([road], 1, 5.0, 3));
      t.roads[0].cars == road.cars && t.crossed == 3
      && t.roads[0].light == Lights.Light(Lights.Green, 0, 200, 100)
  {
    var road := Roads.Road(40, 2, Lights.Light(Lights.Red, 99, 200, 100), [Car(12.5, 3.0, 1)]);
    TickCars(Sim([road], 1, 5.0, 3));
  }

  /** A negative fleet size spawns no car: `range` of a negative number is
      empty, even on a road without lanes. */
  lemma NegativeFleetSpawnsNothing()
    ensures var s := New([Roads.NewRoad(40, 0)], -3, 5.0, [[]]);
      s.roads[0].cars == [] && s.numCars == -3 && s.crossed == 0
  {
  }

  /** A fresh light turns red after exactly 200 ticks and green again after
      100 more, with its timer reset at each change. */
  lemma FreshLightCycle()
    ensures Lights.After(Lights.Fresh(), 200) == Lights.Light(Lights.Red, 0, 200, 100)
    ensures Lights.After(Lights.Fresh(), 300) == Lights.Fresh()
  {
    Lights.GreenThenRed(Lights.GreenFrames, Lights.RedFrames);
  }
}

=== FILE: simulation.dfy ===
/** The engine: a list of roads, the fleet configuration and the crossing
    counter (`TrafficSimulation` in trafficflowsimulation.py). Wall-clock
    time is not modelled. */
module Simulation {
  import opened Cars
  import Lights
  import Roads

  datatype Sim = Sim(roads: seq<Roads.Road>, numCars: int, maxSpeed: real, crossed: nat)

  /** How many cars `range(numCars)` spawns per road: none when `numCars`
      is negative. */
  function CarCount(numCars: int): (n: nat)
    ensures numCars <= n
    ensures n == 0 || n == numCars
  {
    if numCars < 0 then 0 else numCars
  }

  /** Drawing a lane with `randint(0, lanes - 1)` raises on a road without
      lanes, so spawning at least one car needs every road to have one. */
  predicate LanesDrawable(roads: seq<Roads.Road>, numCars: int)
  {
    numCars > 0 ==> forall i :: 0 <= i < |roads| ==> roads[i].lanes > 0
  }

  /** Every road has geometry a tick can work with. */
  predicate Configured(roads: seq<Roads.Road>)
  {
    forall i :: 0 <= i < |roads| ==> Roads.Configured(roads[i])
  }

  /** The engine invariant between ticks: every road satisfies its own. */
  predicate Valid(s: Sim)
  {
    forall i :: 0 <= i < |s.roads| ==> Roads.Valid(s.roads[i], s.maxSpeed)
  }

  /** One list of draws per road, one draw per car, on roads where a lane
      can be drawn at all. */
  predicate DrawsFit(s: Sim, draws: seq<seq<Roads.Draw>>)
  {
    && LanesDrawable(s.roads, s.numCars)
    && |draws| == |s.roads|
    && forall i :: 0 <= i < |draws| ==> |draws[i]| == CarCount(s.numCars)
  }

  /** `generate_cars`: every road's list is replaced by exactly `numCars`
      new cars (none when `numCars` is negative) at position 0 taken from
      that road's draws. */
  function GenerateCars(s: Sim, draws: seq<seq<Roads.Draw>>): (t: Sim)
    requires DrawsFit(s, draws)
    ensures t.numCars == s.numCars && t.maxSpeed == s.maxSpeed && t.crossed == s.crossed
    ensures |t.roads| == |s.roads|
    ensures forall i :: 0 <= i < |s.roads| ==>
              && t.roads[i].length == s.roads[i].length
              && t.roads[i].lanes == s.roads[i].lanes
              && t.roads[i].light == s.roads[i].light
              && |t.roads[i].cars| == CarCount(s.numCars)
              && (forall j :: 0 <= j < CarCount(s.numCars) ==>
                    t.roads[i].cars[j] == Car(0.0, draws[i][j].speed, draws[i][j].lane))
  {
    s.(roads := seq(|s.roads|, i requires 0 <= i < |s.roads| => Roads.Spawn(s.roads[i], draws[i])))
  }

  /** Generating from in-range draws establishes the engine invariant. */
  lemma GenerateValid(s: Sim, draws: seq<seq<Roads.Draw>>)
    requires DrawsFit(s, draws)
    requires forall i :: 0 <= i < |s.roads| ==> Roads.Configured(s.roads[i]) && Lights.Valid(s.roads[i].light)
    requires forall i, j :: 0 <= i < |draws| && 0 <= j < |draws[i]| ==>
               Roads.DrawInRange(draws[i][j], s.roads[i], s.maxSpeed)
    ensures Valid(GenerateCars(s, draws))
  {
    var t := GenerateCars(s, draws);
    forall i | 0 <= i < |s.roads|
      ensures Roads.Valid(t.roads[i], s.maxSpeed)
    {
      Roads.SpawnValid(s.roads[i], draws[i], s.maxSpeed);
    }
  }

  /** Generating again with the same draws changes nothing: the previous
      cars are discarded, never appended to. */
  lemma GenerateIdempotent(s: Sim, draws: seq<seq<Roads.Draw>>)
    requires DrawsFit(s, draws)
    ensures GenerateCars(GenerateCars(s, draws), draws) == GenerateCars(s, draws)
  {
    var t := GenerateCars(s, draws);
    var u := GenerateCars(t, draws);
    assert |u.roads| == |t.roads|;
    forall i | 0 <= i < |t.roads|
      ensures u.roads[i] == t.roads[i]
    {
      Roads.SpawnResets(s.roads[i], t.roads[i].cars, draws[i]);
    }
  }

  /** `TrafficSimulation(roads, num_cars, max_speed)`: spawn the cars and
      start the counter at zero. */
  function New(roads: seq<Roads.Road>, numCars: int, maxSpeed: real, draws: seq<seq<Roads.Draw>>): (s: Sim)
    requires LanesDrawable(roads, numCars)
    requires |draws| == |roads| && forall i :: 0 <= i < |draws| ==> |draws[i]| == CarCount(numCars)
    ensures s.crossed == 0 && s.numCars == numCars && s.maxSpeed == maxSpeed
    ensures |s.roads| == |roads|
    ensures forall i :: 0 <= i < |roads| ==>
              && s.roads[i].length == roads[i].length
              && s.roads[i].lanes == roads[i].lanes
              && s.roads[i].light == roads[i].light
              && |s.roads[i].cars| == CarCount(numCars)
              && (forall j :: 0 <= j < CarCount(numCars) ==>
                    s.roads[i].cars[j] == Car(0.0, draws[i][j].speed, draws[i][j].lane))
  {
    var s0 := Sim(roads, numCars, maxSpeed, 0);
    assert DrawsFit(s0, draws);
    GenerateCars(s0, draws)
  }

  /** A simulation built over configured roads with valid lights, from draws
      the random generator can produce, starts out valid. */
  lemma NewValid(roads: seq<Roads.Road>, numCars: int, maxSpeed: real, draws: seq<seq<Roads.Draw>>)
    requires LanesDrawable(roads, numCars)
    requires |draws| == |roads| && forall i :: 0 <= i < |draws| ==> |draws[i]| == CarCount(numCars)
    requires forall i :: 0 <= i < |roads| ==> Roads.Configured(roads[i]) && Lights.Valid(roads[i].light)
    requires forall i, j :: 0 <= i < |draws| && 0 <= j < |draws[i]| ==>
               Roads.DrawInRange(draws[i][j], roads[i], maxSpeed)
    ensures Valid(New(roads, numCars, maxSpeed, draws))
  {
    var s0 := Sim(roads, numCars, maxSpeed, 0);
    assert DrawsFit(s0, draws);
    GenerateValid(s0, draws);
  }

  /** Cars credited on the first `k` roads in one tick: the crossings counted
      on the roads that were green at the start of the tick, read from the
      cars after the move. */
  function GreenCrossings(before: seq<Roads.Road>, after: seq<Roads.Road>, k: nat): nat
    requires k <= |before| == |after|
  {
    if k == 0 then 0
    else
      GreenCrossings(before, after, k - 1)
        + (if before[k - 1].light.color == Lights.Green then CountCrossed(after[k - 1].cars, after[k - 1].length) else 0)
  }

  /** The credit only looks at the cars and lengths of the moved roads. */
  lemma {:induction false} GreenCrossingsFrame(before: seq<Roads.Road>, a: seq<Roads.Road>, b: seq<Roads.Road>, k: nat)
    requires k <= |before| == |a| == |b|
    requires forall i :: 0 <= i < k ==> a[i].cars == b[i].cars && a[i].length == b[i].length
    ensures GreenCrossings(before, a, k) == GreenCrossings(before, b, k)
  {
    if k > 0 {
      GreenCrossingsFrame(before, a, b, k - 1);
    }
  }

  /** Phase one of a tick, over the first `k` roads in list order: a green
      road's cars are moved in place and its crossings are added to the
      counter; a red road is left alone. */
  function MoveRoads(s: Sim, k: nat): (t: Sim)
    requires Configured(s.roads) && k <= |s.roads|
    ensures t.numCars == s.numCars && t.maxSpeed == s.maxSpeed
    ensures |t.roads| == |s.roads|
    ensures forall i :: 0 <= i < |s.roads| ==>
              && t.roads[i].length == s.roads[i].length
              && t.roads[i].lanes == s.roads[i].lanes
              && t.roads[i].light == s.roads[i].light
              && |t.roads[i].cars| == |s.roads[i].cars|
    ensures forall i :: k <= i < |s.roads| ==> t.roads[i] == s.roads[i]
    ensures t.crossed >= s.crossed
  {
    if k == 0 then s
    else
      var t := MoveRoads(s, k - 1);
      var (road, credited) := Roads.MoveRoad(t.roads[k - 1], s.maxSpeed);
      t.(roads := t.roads[k - 1 := road], crossed := t.crossed + credited)
  }

  /** The first `k` roads of `t` are those of `s` after `Roads.MoveRoad`, and
      the counter of `t` is that of `s` plus the crossings on the green ones. */
  predicate MovedUpTo(s: Sim, t: Sim, k: nat)
    requires Configured(s.roads) && k <= |s.roads| == |t.roads|
  {
    && (forall i :: 0 <= i < k ==> t.roads[i] == Roads.MoveRoad(s.roads[i], s.maxSpeed).0)
    && t.crossed == s.crossed + GreenCrossings(s.roads, t.roads, k)
  }

  /** Phase one moves exactly the green roads, each by the car pass, and
      credits exactly the crossings on those roads. */
  lemma {:induction false} MoveRoadsEffect(s: Sim, k: nat)
    requires Configured(s.roads) && k <= |s.roads|
    ensures MovedUpTo(s, MoveRoads(s, k), k)
  {
    if k > 0 {
      MoveRoadsEffect(s, k - 1);
      MovedStep(s, MoveRoads(s, k - 1), k);
    }
  }

  /** Moving road `k - 1`, still untouched, extends `MovedUpTo` by one road. */
  lemma MovedStep(s: Sim, prev: Sim, k: nat)
    requires Configured(s.roads) && 0 < k <= |s.roads| == |prev.roads|
    requires prev.roads[k - 1] == s.roads[k - 1] && prev.maxSpeed == s.maxSpeed
    requires MovedUpTo(s, prev, k - 1)
    ensures var (road, credited) := Roads.MoveRoad(prev.roads[k - 1], s.maxSpeed);
      MovedUpTo(s, prev.(roads := prev.roads[k - 1 := road], crossed := prev.crossed + credited), k)
  {
    var (road, credited) := Roads.MoveRoad(prev.roads[k - 1], s.maxSpeed);
    var t := prev.(roads := prev.roads[k - 1 := road], crossed := prev.crossed + credited);
    GreenCrossingsFrame(s.roads, prev.roads, t.roads, k - 1);
  }

  /** Phase two of a tick, over the first `k` roads: each light advances once. */
  function UpdateLights(roads: seq<Roads.Road>, k: nat): (r: seq<Roads.Road>)
    requires k <= |roads|
    ensures |r| == |roads|
    ensures forall i :: 0 <= i < |roads| ==>
              && r[i].light == (if i < k then Lights.Update(roads[i].light) else roads[i].light)
              && r[i].cars == roads[i].cars && r[i].length == roads[i].length && r[i].lanes == roads[i].lanes
  {
    if k == 0 then roads
    else
      var r := UpdateLights(roads, k - 1);
      r[k - 1 := r[k - 1].(light := Lights.Update(r[k - 1].light))]
  }

  /** `update`: move the cars of every green road, then advance every light.
      Cars are gated by the colour each light had at the start of the tick;
      a light that flips in this tick affects its cars from the next tick. */
  function Tick(s: Sim): (t: Sim)
    requires Configured(s.roads)
    ensures t.numCars == s.numCars && t.maxSpeed == s.maxSpeed
    ensures |t.roads| == |s.roads| && Configured(t.roads)
    ensures forall i :: 0 <= i < |s.roads| ==>
              && t.roads[i].length == s.roads[i].length
              && t.roads[i].lanes == s.roads[i].lanes
              && t.roads[i].light == Lights.Update(s.roads[i].light)
              && |t.roads[i].cars| == |s.roads[i].cars|
    ensures t.crossed >= s.crossed
  {
    var moved := MoveRoads(s, |s.roads|);
    moved.(roads := UpdateLights(moved.roads, |moved.roads|))
  }

  /** What a tick does to the cars: a road that was red at the start of the
      tick is frozen, a road that was green runs the car pass, and the counter
      grows by exactly the crossings credited on the green roads. */
  lemma TickCars(s: Sim)
    requires Configured(s.roads)
    ensures var t := Tick(s);
      && (forall i :: 0 <= i < |s.roads| && s.roads[i].light.color == Lights.Red ==>
            t.roads[i].cars == s.roads[i].cars)
      && (forall i :: 0 <= i < |s.roads| && s.roads[i].light.color == Lights.Green ==>
            t.roads[i].cars == MoveCars(s.roads[i].cars, s.maxSpeed, s.roads[i].length, s.roads[i].lanes))
      && t.crossed == s.crossed + GreenCrossings(s.roads, t.roads, |s.roads|)
  {
    var moved := MoveRoads(s, |s.roads|);
    var t := Tick(s);
    assert t.roads == UpdateLights(moved.roads, |moved.roads|);
    MoveRoadsEffect(s, |s.roads|);
    GreenCrossingsFrame(s.roads, moved.roads, t.roads, |s.roads|);
  }

  /** A tick keeps the engine invariant: speeds in `[0, maxSpeed]`,
      positions on the road, lanes in range, lights valid. */
  lemma TickValid(s: Sim)
    requires Valid(s)
    ensures Configured(s.roads)
    ensures Valid(Tick(s))
  {
    var t := Tick(s);
    var moved := MoveRoads(s, |s.roads|);
    assert t.roads == UpdateLights(moved.roads, |moved.roads|);
    MoveRoadsEffect(s, |s.roads|);
    forall i | 0 <= i < |s.roads|
      ensures Roads.Valid(t.roads[i], t.maxSpeed)
    {
      var road := s.roads[i];
      Roads.MoveRoadValid(road, s.maxSpeed);
      assert t.roads[i] == moved.roads[i].(light := Lights.Update(road.light));
    }
  }

  /** The engine after `n` ticks: one tick, then `n - 1` more. */
  function Run(s: Sim, n: nat): (r: Sim)
    requires Configured(s.roads)
    ensures |r.roads| == |s.roads| && Configured(r.roads)
    ensures r.numCars == s.numCars && r.maxSpeed == s.maxSpeed
    ensures r.crossed >= s.crossed
    decreases n
  {
    if n == 0 then s else Run(Tick(s), n - 1)
  }

  /** `r` has the roads of `s` with their geometry and number of cars, and
      every light advanced exactly `n` times. */
  predicate RoadsAdvanced(s: Sim, r: Sim, n: nat)
  {
    && |r.roads| == |s.roads|
    && forall i :: 0 <= i < |s.roads| ==>
         && r.roads[i].length == s.roads[i].length
         && r.roads[i].lanes == s.roads[i].lanes
         && |r.roads[i].cars| == |s.roads[i].cars|
         && r.roads[i].light == Lights.After(s.roads[i].light, n)
  }

  /** Over `n` ticks each road keeps its geometry and number of cars, and its
      light goes through exactly `n` updates whatever happens to the cars. */
  lemma {:induction false} RunRoads(s: Sim, n: nat)
    requires Configured(s.roads)
    ensures RoadsAdvanced(s, Run(s, n), n)
    decreases n, 1
  {
    if n > 0 {
      RunRoadsStep(s, n);
    }
  }

  /** The inductive step of `RunRoads`: the first tick advances every light
      once, the remaining `n - 1` ticks do the rest. */
  lemma RunRoadsStep(s: Sim, n: nat)
    requires Configured(s.roads)
    requires n > 0
    ensures RoadsAdvanced(s, Run(s, n), n)
    decreases n, 0
  {
    var next := Tick(s);
    RunRoads(next, n - 1);
    assert Run(s, n) == Run(next, n - 1);
    AdvancedThen(s, next, Run(next, n - 1), n);
  }

  /** One tick's worth of light updates followed by `n - 1` more is `n`. */
  lemma AdvancedThen(s: Sim, t: Sim, r: Sim, n: nat)
    requires n > 0
    requires |t.roads| == |s.roads|
    requires forall i :: 0 <= i < |s.roads| ==>
               && t.roads[i].length == s.roads[i].length
               && t.roads[i].lanes == s.roads[i].lanes
               && |t.roads[i].cars| == |s.roads[i].cars|
               && t.roads[i].light == Lights.Update(s.roads[i].light)
    requires RoadsAdvanced(t, r, n - 1)
    ensures RoadsAdvanced(s, r, n)
  {
    forall i | 0 <= i < |s.roads|
      ensures r.roads[i].light == Lights.After(s.roads[i].light, n)
    {
      Lights.AfterUpdate(s.roads[i].light, n - 1);
    }
  }

  /** Every state reached from a valid engine is valid. */
  lemma {:induction false} RunValid(s: Sim, n: nat)
    requires Valid(s)
    ensures Configured(s.roads)
    ensures Valid(Run(s, n))
    decreases n
  {
    TickValid(s);
    if n > 0 {
      RunValid(Tick(s), n - 1);
    }
  }

  /** The crossing counter never decreases over any number of ticks. */
  lemma {:induction false} RunMonotone(s: Sim, m: nat, n: nat)
    requires Configured(s.roads)
    requires m <= n
    ensures Run(s, m).crossed <= Run(s, n).crossed
    decreases m, 1
  {
    if m > 0 {
      RunMonotoneStep(s, m, n);
    }
  }

  /** The inductive step of `RunMonotone`: both runs start with the same tick. */
  lemma RunMonotoneStep(s: Sim, m: nat, n: nat)
    requires Configured(s.roads)
    requires 0 < m <= n
    ensures Run(s, m).crossed <= Run(s, n).crossed
    decreases m, 0
  {
    var next := Tick(s);
    RunMonotone(next, m - 1, n - 1);
    assert Run(s, m) == Run(next, m - 1);
    assert Run(s, n) == Run(next, n - 1);
  }

  /** A road built by `NewRoad` is green exactly in the first 200 of every
      300 ticks, independently of its cars and of the other roads. */
  lemma RunLightSchedule(s: Sim, i: int, n: nat)
    requires Configured(s.roads)
    requires 0 <= i < |s.roads| && s.roads[i].light == Lights.Fresh()
    ensures Run(s, n).roads[i].light.color == Lights.Green <==> n % 300 < 200
  {
    RunRoads(s, n);
    Lights.GreenSchedule(Lights.GreenFrames, Lights.RedFrames, n);
  }
}
